=== FILE: README.md ===
# repo-summarizer core, modelled in Dafny

The service turns a GitHub URL into a prompt for a language model that
summarises the repository. Between the URL and the model call, a chain of
deterministic steps in `repo_service.py` decides what the model sees:

1. `parse_github_url` checks that the host is GitHub and extracts the owner
   and repository name (module `GitHubUrl`).
2. `collect_files` walks the clone. It prunes noise directories, drops noise
   file endings, drops files over 100 000 bytes and files whose `stat` fails,
   and sorts the rest by relative path (module `Scanner`).
3. `build_directory_tree` renders the collected files as an indented outline
   inside a fenced block. Each directory is listed once, the first time a
   file below it appears (module `TreeRenderer`).
4. `select_important_files` maps the model's reply back to collected files.
   It keeps the reply's order, skips unknown and repeated paths, and stops
   at 20 (module `Selector`).
5. `build_context` turns each readable selected file into a chunk. It drops
   chunks from the end until the tree and the chunks fit the token budget,
   joins the parts with blank lines, and truncates the result if it is still
   too large (module `Budget`, including `_truncate_to_tokens`).

`Strings` models the Python string built-ins these steps use, with their
exact semantics:
- `strip`, `split`, `rfind` and `endswith`;
- lexicographic `<`;
- `"\n".join`.

`Paths` models a relative path as its sequence of components.

Behaviour of the code that the model makes explicit:
- Files are selected in the order the model's reply names them, and chunks
  are dropped from the end of that order; there is no other ranking.
- The code does not guarantee that the context fits the token ceiling, nor
  that a truncated text ends on a complete line:
  - `Budget.ContextCanExceedLimit` shows a context whose token count is above
    the ceiling, because the truncation marker is appended after the cut;
  - `Budget.TruncateToTokensCut` shows that when the decoded prefix has no
    newline after its first character, it is kept whole, even if it ends
    mid-line.
- `re.sub(r"\.git$", "", s)` also removes `.git` when it is followed by one
  final newline, because `$` matches there. `GitHubUrl.StripGitSuffix`
  models both cases. The second case only matters for a path that `urlparse`
  does not produce in recent Python versions, which delete tabs, carriage
  returns and newlines from the URL first.
- In `_truncate_to_tokens`, `tokens[:max_tokens]` with a negative budget
  (a system prompt larger than the ceiling) keeps all but the last
  `-max_tokens` tokens. `Budget.TruncateToTokens` models Python slicing
  exactly for that case.
- In `parse_github_url`, the "empty owner" half of the last check can never
  fire: after `strip("/")` the first segment is non-empty whenever there are
  two. `GitHubUrl.OwnerSegmentNonEmpty` proves this.

Some inputs are parameters of the model:
- The tokenizer is a `Tokenizer` value holding an `encode` and a `decode`
  function. The model assumes no round-trip or additivity property, so
  every lemma that takes the tokenizer as a parameter holds for any
  encoding. The two lemmas that exhibit an overrun fix a concrete tokenizer
  instead, `Budget.CodePointTokenizer`, which round-trips every text.
- The directory walk is replaced by the list of every file in the tree, each
  with the result of its `stat`. The walk's pruning of skipped directories
  (`dirs[:] = ...`) becomes a filter on that list.
- Reading a file is a function from relative path to an optional content.

## Model

| member | source | states |
|---|---|---|
| Strings.Split | repo_service.py:94 | `str.split` on one character: at least one piece, no piece contains the separator, and joining the pieces with the separator gives back the input |
| Strings.SplitJoin | repo_service.py:94 | round trip the other way: splitting a join of separator-free pieces gives back the pieces |
| Strings.SplitSingle | repo_service.py:94-97 | `split` gives exactly one piece iff the separator does not occur, which is when "must include owner and repo" is raised |
| Strings.Strip | repo_service.py:94 | `str.strip("/")`: no longer than the input, and the result neither starts nor ends with the stripped character |
| Strings.StripSlice | repo_service.py:94 | the stripped string is a contiguous slice of the input, and only the stripped character was removed on either side |
| Strings.RFind | repo_service.py:213 | `str.rfind`: -1 exactly when the character is absent, otherwise the index of its last occurrence |
| Strings.LexLeTotal | repo_service.py:146 | string order compares any two paths, so the sort key is total |
| Strings.LexLeTransitive | repo_service.py:146 | string order is transitive |
| Strings.JoinAppend | repo_service.py:245-246 | joining two non-empty lists is joining each and putting one separator between them |
| GitHubUrl.StripGitSuffix | repo_service.py:100 | removes `.git` at the end, or just before one final newline; otherwise the segment is unchanged; no character is introduced |
| GitHubUrl.OwnerSegmentNonEmpty | repo_service.py:94-103 | after stripping slashes, a path with a slash has a non-empty first segment, so the empty-owner test never fires |
| GitHubUrl.ParseGitHubUrl | repo_service.py:87-105 | each of the three errors is returned exactly when its condition holds (not a GitHub host; no slash left after stripping; the second segment is empty once `.git` is removed); on success the owner is the first segment and the repository is the second without `.git`, both non-empty and slash-free |
| GitHubUrl.ParseIgnoresExtraSegments | repo_service.py:94-105 | any run of leading slashes, trailing slashes and every segment after the second are ignored: `//owner/name/...` parses to `owner` and `name` without `.git`, or to the empty-repository error when the name is just `.git` |
| Scanner.EligiblePaths | repo_service.py:130-144 | a path is collected iff some entry of the tree has it and is not under a skipped directory, has no skipped ending and has a successful `stat` of at most the size limit |
| Paths.NoDuplicatesPermutation | repo_service.py:146 | a permutation of a list without repeats has none, so sorting never introduces a repeat |
| Scanner.InsertByPath | repo_service.py:146 | inserting into a path-sorted list keeps it sorted and adds exactly that path |
| Scanner.SortByPath | repo_service.py:146 | the result is sorted by path string and is a permutation of the input |
| Scanner.CollectFiles | repo_service.py:126-146 | the loop returns the eligible paths sorted by path string; a path is in the result iff its entry is eligible; no result lies under a skipped directory or has a skipped ending; never more files than entries; when no two entries share a path, no file is returned twice |
| Scanner.EligiblePathsOnce | repo_service.py:133-144 | when no two entries of the tree share a path, each eligible file contributes its path exactly once |
| Scanner.SizeCeilingIsInclusive | repo_service.py:138-142 | a file of exactly 100 000 bytes is kept, one of 100 001 bytes is dropped, and a failed `stat` drops the file |
| Scanner.SkippedDirectoryIsPruned | repo_service.py:130-131 | a path with a skipped directory at any depth above the file is never collected, whatever the rest of the tree holds |
| TreeRenderer.Indent | repo_service.py:162 | the indentation of depth d is exactly 2·d spaces |
| TreeRenderer.PrefixDirsMember | repo_service.py:158-159 | the directories the inner loop visits for a file are exactly its proper prefixes |
| TreeRenderer.SeenDirsMember | repo_service.py:154-161 | after a run of files, `seen_dirs` holds exactly the directories that are ancestors of some file seen so far |
| TreeRenderer.ListDirectories | repo_service.py:158-163 | the inner loop adds the file's ancestors to `seen_dirs` and appends one line per ancestor not seen before, in order from the root down |
| TreeRenderer.BuildDirectoryTree | repo_service.py:151-168 | the returned text is the header, the fence, the outline of the files and the closing fence, joined with newlines; it starts with the header and fence and ends with the fence |
| TreeRenderer.JoinFraming | repo_service.py:153-168 | any outline wrapped in the header and fences starts with `# Directory Structure` and the opening fence, and ends with the closing fence |
| TreeRenderer.ListingFiles | repo_service.py:156-165 | the file lines of the outline are exactly the input files, in input order |
| TreeRenderer.FileTextsOfFiles | repo_service.py:164-165 | in any listing, the i-th file line reads as the i-th listed file's indentation and name |
| TreeRenderer.FileLinesText | repo_service.py:156-165 | in the rendered tree, the i-th file line is the i-th input file, indented two spaces per directory above it and showing only its name |
| TreeRenderer.ListingDirCount | repo_service.py:158-163 | a directory line occurs once if the directory was seen, and never otherwise |
| TreeRenderer.DirectoryListedOnce | repo_service.py:158-163 | a directory is listed exactly once if some input file lies below it, and not at all otherwise |
| TreeRenderer.NewDirsOrder | repo_service.py:158-163 | every directory line the inner loop emits has its parent already seen, or emitted earlier for the same file |
| TreeRenderer.ListingOrder | repo_service.py:156-165 | in the outline every file comes after all its ancestor directories, and every directory comes after its parent |
| Selector.PathIndex | repo_service.py:193 | `rel_to_abs` maps each key to a file whose path string is that key, and every collected file's path string is a key |
| Selector.PathIndexValues | repo_service.py:193 | every value of `rel_to_abs` is one of the collected files |
| Selector.ResolveMembers | repo_service.py:196-198 | a file is resolved from the reply iff some reply string is a known key that maps to it |
| Selector.DedupProperties | repo_service.py:197-198 | the "not in ordered" test keeps the same set of files, removes every repeat and never lengthens the list |
| Selector.DedupPrefix | repo_service.py:196-198 | processing a prefix of the resolved list gives a prefix of the final list |
| Selector.ResolvePrefix | repo_service.py:196-198 | resolving a prefix of the reply gives a prefix of the resolved list |
| Selector.DedupFollowsReply | repo_service.py:196-198 | every kept file was named in the reply, and kept files appear in the order of their first mention |
| Selector.SelectionOrdered | repo_service.py:193-202 | the selection has no repeats, names only files in the reply, and follows the order of first mention |
| Selector.SelectionMembers | repo_service.py:193-202 | every selected file is named in the reply and is what `rel_to_abs` maps its path string to |
| Selector.SelectionComplete | repo_service.py:196-200 | if fewer than 20 files were selected, every known path in the reply was selected |
| Selector.LoopExitIsSelection | repo_service.py:196-202 | leaving the loop at the 20th file, or at the end of the reply, yields the selection |
| Selector.SelectionFirstNamed | repo_service.py:196-200 | the selection is a prefix of the known files in order of first mention: any known path first named before the last selected file is selected |
| Selector.SelectionSpec | repo_service.py:193-202 | at most 20 files, none repeated, each a collected file named in the reply, in order of first mention; they are the first such files named, so any known path first named before the last selected file is selected; if fewer than 20, every collected file the reply names is included |
| Selector.SelectFiles | repo_service.py:193-202 | the loop with its `break` at 20 returns exactly the selection, with at most 20 files and no repeats |
| Budget.TruncateToTokens | repo_service.py:207-211 | text that fits the token limit is returned unchanged |
| Budget.TruncateToTokensCut | repo_service.py:212-216 | text over the limit comes back as a prefix of the decoded kept tokens plus the truncation marker; the prefix is cut at the last newline when that newline is not at index 0, and is the whole decoded text otherwise |
| Budget.FileChunks | repo_service.py:229-237 | never more chunks than selected files, each carrying the token count of its own text |
| Budget.FileChunksStep | repo_service.py:230-237 | each selected file in turn adds exactly its own chunk when it can be read, and nothing when the read fails |
| Budget.FileChunksMembers | repo_service.py:229-237 | a readable selected file always yields its chunk, and every chunk comes from a readable selected file |
| Budget.FileChunksPrefix | repo_service.py:229-237 | the chunks of a prefix of the selection are a prefix of all the chunks |
| Budget.ReadChunks | repo_service.py:229-237 | the loop skips unreadable files and returns exactly the chunks of the readable ones, in selection order |
| Budget.TotalTokensMonotone | repo_service.py:239-243 | dropping chunks from the end never raises the total |
| Budget.KeptChunks | repo_service.py:239-243 | the kept chunks are a prefix of the chunks; they fit the budget together with the tree unless none is left; when everything fits, nothing is dropped |
| Budget.KeptChunksMaximal | repo_service.py:241-243 | no longer prefix of the chunks fits the budget, so the loop drops no more than it must |
| Budget.DropChunks | repo_service.py:239-243 | the pop loop leaves exactly the kept chunks: the longest prefix that fits the budget beside the tree, or none |
| Budget.BuildContext | repo_service.py:219-251 | `build_context` returns exactly the reference context: the kept chunks joined after the tree, truncated to the budget when the result is too large |
| Budget.JoinedStartsWithTree | repo_service.py:245-246 | the joined context starts with the tree, followed by a blank line and the first kept chunk when there is one |
| Budget.ContextWithinLimit | repo_service.py:245-251 | when the joined parts fit the ceiling, the context is the join, starting with the tree and then the first kept chunk |
| Budget.ContextOverLimit | repo_service.py:248-249 | when the joined parts are too large, the context ends with the truncation marker |
| Budget.ContextKeepsEverythingThatFits | repo_service.py:239-251 | when the tree and all chunks fit, the context is the tree and every chunk, joined |
| Budget.CodePointRoundTrip | repo_service.py:209-212 | the witness tokenizer used below is faithful: decoding what it encodes gives the text back |
| Budget.TruncationOvershoots | repo_service.py:212-216 | with that tokenizer, a text without line breaks cut to `n` tokens counts `n` plus the marker's length, which exceeds the limit |
| Budget.ContextCanExceedLimit | repo_service.py:225-251 | with that tokenizer, a tree without line breaks longer than the ceiling yields a context whose token count exceeds the ceiling |

## Left out

- `clone_repo` (lines 110-121) runs `git clone` in a subprocess; it is I/O only.
- The language-model calls in `select_important_files` and `summarize_repo`, and their prompts, are external services. The model starts from the list of path strings in the reply.
- `json.loads(raw).get("files", [])`: JSON decoding is not modelled; a malformed reply raises in the code and is outside the model.
- `urlparse`: the model starts from the parsed host name and path.
- `tiktoken`: the tokenizer is a parameter with arbitrary `encode` and `decode` functions, and its `encode` always succeeds. The real `encode` raises `ValueError` on text that contains a special-token string such as `<|endoftext|>`. `_count_tokens` at line 237 and `encode` at line 209 are outside any `try`. So a selected file containing such a string makes `build_context` raise, while `Budget.BuildContext` returns a context.
- `os.walk`, `stat` and `read_text`: these are replaced by the list of every file in the tree, with the pruning of skipped directories as a filter, and a read function. The walk order is not modelled because the result is sorted. Decoding with `errors="replace"` and `Path` normalisation of unusual component names are not modelled.
- `process_repo` orchestration, the temporary-directory cleanup and `main.py` (the web entry point) are not part of this model.
- Budget.BuildContext: does not promise that the context fits the ceiling, because the code does not guarantee it; `Budget.ContextCanExceedLimit` exhibits the overrun.

=== FILE: budget.dfy ===
/** Step 6 of the pipeline: assembling the directory tree and the selected
    files' contents into one text that fits a token budget. The tokenizer is
    a parameter: nothing is assumed about it beyond being a pair of total
    functions, so every lemma that takes the tokenizer as a parameter holds
    for any encoding. */
module Budget {
  import opened Strings
  import opened Paths
  import opened Wrappers

  type Token = nat

  /** The tokenizer's `encode` and `decode`. */
  datatype Tokenizer = Tokenizer(encode: string -> seq<Token>, decode: seq<Token> -> string)

  /** `_count_tokens` */
  function CountTokens(tok: Tokenizer, s: string): nat {
    |tok.encode(s)|
  }

  /** The limit on the prompt, system prompt included. */
  const MaxContextTokens: nat := 100_000

  /** Between the tree and each file's chunk. */
  const PartSeparator: string := "\n\n"

  /** Appended to a text that had to be cut. */
  const TruncationMarker: string := "\n\n... [truncated] ..."

  /** Python's `ts[:n]`, where a negative `n` counts from the end. */
  function SliceTo(ts: seq<Token>, n: int): seq<Token> {
    if n >= |ts| then ts
    else if n >= 0 then ts[..n]
    else if -n <= |ts| then ts[..|ts| + n]
    else []
  }

  /** `_truncate_to_tokens` */
  function TruncateToTokens(tok: Tokenizer, text: string, maxTokens: int): (r: string)
    ensures CountTokens(tok, text) <= maxTokens ==> r == text
  {
    var tokens := tok.encode(text);
    if |tokens| <= maxTokens then text
    else
      var truncated := tok.decode(SliceTo(tokens, maxTokens));
      var lastNewline := RFind(truncated, '\n');
      (if lastNewline > 0 then truncated[..lastNewline] else truncated) + TruncationMarker
  }

  /** A text over the bound becomes the decoded first `maxTokens` tokens, cut
      before their last newline when that newline is not the first character,
      followed by the marker. */
  lemma TruncateToTokensCut(tok: Tokenizer, text: string, maxTokens: int)
    requires CountTokens(tok, text) > maxTokens
    ensures var r := TruncateToTokens(tok, text, maxTokens);
            var d := tok.decode(SliceTo(tok.encode(text), maxTokens));
            EndsWith(r, TruncationMarker)
            && var kept := r[..|r| - |TruncationMarker|];
               StartsWith(d, kept)
               && (kept == d <==> forall i :: 0 < i < |d| ==> d[i] != '\n')
               && (kept != d ==>
                     0 < |kept| && d[|kept|] == '\n'
                     && forall i :: |kept| < i < |d| ==> d[i] != '\n')
  {
    var r := TruncateToTokens(tok, text, maxTokens);
    var d := tok.decode(SliceTo(tok.encode(text), maxTokens));
    var lastNewline := RFind(d, '\n');
    var kept := if lastNewline > 0 then d[..lastNewline] else d;
    assert r == kept + TruncationMarker;
    assert r[..|r| - |TruncationMarker|] == kept;
    assert r[|r| - |TruncationMarker|..] == TruncationMarker;
  }

  // ---------------------------------------------------------------------
  // File chunks

  /** One file's section of the context, with its token count. */
  datatype Chunk = Chunk(text: string, tokens: nat)

  /** The section text for a file: a heading with its relative path, then its
      content in a code fence. */
  function ChunkText(rel: RelPath, content: string): string {
    "## File: " + PathString(rel) + "\n```\n" + content + "\n```"
  }

  function FileChunk(tok: Tokenizer, rel: RelPath, content: string): Chunk {
    var text := ChunkText(rel, content);
    Chunk(text, CountTokens(tok, text))
  }

  /** The chunks of the files that can be read, in selection order; a file
      whose read fails contributes nothing. */
  function FileChunks(tok: Tokenizer, files: seq<RelPath>, read: RelPath -> Option<string>): (r: seq<Chunk>)
    ensures |r| <= |files|
    ensures forall i :: 0 <= i < |r| ==> r[i].tokens == CountTokens(tok, r[i].text)
  {
    if |files| == 0 then []
    else
      var init := files[..|files| - 1];
      var last := files[|files| - 1];
      assert files == init + [last];
      FileChunks(tok, init, read) + match read(last) {
        case None => []
        case Some(content) => [FileChunk(tok, last, content)]
      }
  }

  /** Every readable file has its chunk, and every chunk is a readable file's. */
  lemma {:induction false} FileChunksMembers(tok: Tokenizer, files: seq<RelPath>, read: RelPath -> Option<string>)
    ensures forall f :: f in files && read(f).Some? ==> FileChunk(tok, f, read(f).value) in FileChunks(tok, files, read)
    ensures forall c :: c in FileChunks(tok, files, read) ==>
              exists f :: f in files && read(f).Some? && c == FileChunk(tok, f, read(f).value)
  {
    if |files| > 0 {
      var init := files[..|files| - 1];
      assert files == init + [files[|files| - 1]];
      FileChunksMembers(tok, init, read);
    }
  }

  /** Each selected file in turn adds exactly one chunk, its own, when it can
      be read, and nothing otherwise. */
  lemma FileChunksStep(tok: Tokenizer, files: seq<RelPath>, read: RelPath -> Option<string>, k: nat)
    requires k < |files|
    ensures var before := FileChunks(tok, files[..k], read);
            var after := FileChunks(tok, files[..k + 1], read);
            match read(files[k])
            case None => after == before
            case Some(content) => after == before + [FileChunk(tok, files[k], content)]
  {
    assert files[..k + 1][..k] == files[..k];
  }

  /** Chunks of a longer selection extend those of a shorter one. */
  lemma {:induction false} FileChunksPrefix(tok: Tokenizer, files: seq<RelPath>, read: RelPath -> Option<string>, k: nat)
    requires k <= |files|
    ensures var pre := FileChunks(tok, files[..k], read);
            |pre| <= |FileChunks(tok, files, read)| && pre == FileChunks(tok, files, read)[..|pre|]
  {
    if k < |files| {
      var init := files[..|files| - 1];
      assert files[..k] == init[..k];
      FileChunksPrefix(tok, init, read, k);
    } else {
      assert files[..k] == files;
    }
  }

  /** `sum(t for _, t in file_chunks)` */
  function TotalTokens(chunks: seq<Chunk>): nat {
    if |chunks| == 0 then 0 else TotalTokens(chunks[..|chunks| - 1]) + chunks[|chunks| - 1].tokens
  }

  /** A longer prefix never costs fewer tokens. */
  lemma {:induction false} TotalTokensMonotone(chunks: seq<Chunk>, j: nat)
    requires j <= |chunks|
    ensures TotalTokens(chunks[..j]) <= TotalTokens(chunks)
  {
    if j < |chunks| {
      assert chunks[..|chunks| - 1][..j] == chunks[..j];
      TotalTokensMonotone(chunks[..|chunks| - 1], j);
    } else {
      assert chunks[..j] == chunks;
    }
  }

  /** The chunks left after popping from the end while the total is over
      budget: the longest prefix that fits beside the tree, or nothing. */
  function KeptChunks(treeTokens: nat, chunks: seq<Chunk>, budget: int): (kept: seq<Chunk>)
    ensures |kept| <= |chunks| && kept == chunks[..|kept|]
    ensures |kept| == 0 || treeTokens + TotalTokens(kept) <= budget
    ensures treeTokens + TotalTokens(chunks) <= budget ==> kept == chunks
  {
    if |chunks| > 0 && treeTokens + TotalTokens(chunks) > budget then
      KeptChunks(treeTokens, chunks[..|chunks| - 1], budget)
    else
      assert chunks[..|chunks|] == chunks;
      chunks
  }

  /** No chunk was dropped needlessly: every longer prefix is over budget. */
  lemma {:induction false} KeptChunksMaximal(treeTokens: nat, chunks: seq<Chunk>, budget: int, j: nat)
    requires |KeptChunks(treeTokens, chunks, budget)| < j <= |chunks|
    ensures treeTokens + TotalTokens(chunks[..j]) > budget
  {
    var init := chunks[..|chunks| - 1];
    if j < |chunks| {
      assert init[..j] == chunks[..j];
      KeptChunksMaximal(treeTokens, init, budget, j);
    } else {
      assert chunks[..j] == chunks;
    }
  }

  /** One step of the drop loop leaves the eventual result unchanged. */
  lemma KeptChunksPop(treeTokens: nat, chunks: seq<Chunk>, budget: int)
    requires |chunks| > 0 && treeTokens + TotalTokens(chunks) > budget
    ensures KeptChunks(treeTokens, chunks, budget) == KeptChunks(treeTokens, chunks[..|chunks| - 1], budget)
    ensures TotalTokens(chunks) == TotalTokens(chunks[..|chunks| - 1]) + chunks[|chunks| - 1].tokens
  {
  }

  /** Where the drop loop stops, what is left is the result. */
  lemma KeptChunksStop(treeTokens: nat, chunks: seq<Chunk>, budget: int)
    requires |chunks| == 0 || treeTokens + TotalTokens(chunks) <= budget
    ensures KeptChunks(treeTokens, chunks, budget) == chunks
  {
  }

  /** The texts of the chunks, in order. */
  function Texts(chunks: seq<Chunk>): seq<string> {
    seq(|chunks|, i requires 0 <= i < |chunks| => chunks[i].text)
  }

  // ---------------------------------------------------------------------
  // The context

  /** The reference result of `build_context`. */
  function Context(tok: Tokenizer, systemPrompt: string, tree: string,
                   files: seq<RelPath>, read: RelPath -> Option<string>): string
  {
    var systemTokens := CountTokens(tok, systemPrompt);
    var budget := MaxContextTokens - systemTokens;
    var kept := KeptChunks(CountTokens(tok, tree), FileChunks(tok, files, read), budget);
    var joined := Join([tree] + Texts(kept), PartSeparator);
    if CountTokens(tok, joined) + systemTokens > MaxContextTokens then TruncateToTokens(tok, joined, budget)
    else joined
  }

  /** The first loop of `build_context`: one chunk, with its token count, per
      file that can be read, in selection order. */
  method ReadChunks(tok: Tokenizer, importantFiles: seq<RelPath>, read: RelPath -> Option<string>)
    returns (fileChunks: seq<Chunk>)
    ensures fileChunks == FileChunks(tok, importantFiles, read)
  {
    fileChunks := [];
    for k := 0 to |importantFiles|
      invariant fileChunks == FileChunks(tok, importantFiles[..k], read)
    {
      assert importantFiles[..k + 1] == importantFiles[..k] + [importantFiles[k]];
      var filepath := importantFiles[k];
      var content: string;
      match read(filepath) {
        case None =>
          continue;
        case Some(c) =>
          content := c;
      }
      var chunk := ChunkText(filepath, content);
      fileChunks := fileChunks + [Chunk(chunk, CountTokens(tok, chunk))];
    }
    assert importantFiles[..|importantFiles|] == importantFiles;
  }

  /** The pop loop of `build_context`: drops chunks from the end while the
      tree and the chunks are over the budget. */
  method DropChunks(treeTokens: nat, chunks: seq<Chunk>, tokenBudget: int) returns (fileChunks: seq<Chunk>)
    ensures fileChunks == KeptChunks(treeTokens, chunks, tokenBudget)
  {
    fileChunks := chunks;
    var total := treeTokens + TotalTokens(fileChunks);
    while total > tokenBudget && |fileChunks| > 0
      invariant total == treeTokens + TotalTokens(fileChunks)
      invariant KeptChunks(treeTokens, fileChunks, tokenBudget) == KeptChunks(treeTokens, chunks, tokenBudget)
      decreases |fileChunks|
    {
      KeptChunksPop(treeTokens, fileChunks, tokenBudget);
      var removed := fileChunks[|fileChunks| - 1];
      fileChunks := fileChunks[..|fileChunks| - 1];
      total := total - removed.tokens;
    }
    KeptChunksStop(treeTokens, fileChunks, tokenBudget);
  }

  /** `build_context`: reads the selected files, drops chunks from the end
      until the rest fits, joins, and cuts the result as a last resort. */
  method BuildContext(tok: Tokenizer, systemPrompt: string, tree: string,
                      importantFiles: seq<RelPath>, read: RelPath -> Option<string>)
    returns (context: string)
    ensures context == Context(tok, systemPrompt, tree, importantFiles, read)
  {
    var systemTokens := CountTokens(tok, systemPrompt);
    var tokenBudget := MaxContextTokens - systemTokens;
    var treeTokens := CountTokens(tok, tree);

    var fileChunks := ReadChunks(tok, importantFiles, read);
    fileChunks := DropChunks(treeTokens, fileChunks, tokenBudget);
    ContextCut(tok, systemPrompt, tree, importantFiles, read);

    var parts := [tree] + Texts(fileChunks);
    context := Join(parts, PartSeparator);
    if CountTokens(tok, context) + systemTokens > MaxContextTokens {
      context := TruncateToTokens(tok, context, tokenBudget);
    }
  }

  /** The context is the joined text, cut only when it is over the limit. */
  lemma ContextCut(tok: Tokenizer, systemPrompt: string, tree: string,
                   files: seq<RelPath>, read: RelPath -> Option<string>)
    ensures var systemTokens := CountTokens(tok, systemPrompt);
            var budget := MaxContextTokens - systemTokens;
            var kept := KeptChunks(CountTokens(tok, tree), FileChunks(tok, files, read), budget);
            var joined := Join([tree] + Texts(kept), PartSeparator);
            Context(tok, systemPrompt, tree, files, read)
              == if CountTokens(tok, joined) + systemTokens > MaxContextTokens
                 then TruncateToTokens(tok, joined, budget) else joined
  {
  }

  /** The joined text opens with the tree, then a blank line and the first chunk. */
  lemma {:induction false} JoinedStartsWithTree(tree: string, texts: seq<string>)
    ensures StartsWith(Join([tree] + texts, PartSeparator), tree)
    ensures |texts| > 0 ==> StartsWith(Join([tree] + texts, PartSeparator), tree + PartSeparator + texts[0])
  {
    if |texts| > 0 {
      JoinAppend([tree], texts, PartSeparator);
      if |texts| > 1 {
        JoinAppend([texts[0]], texts[1..], PartSeparator);
        assert [texts[0]] + texts[1..] == texts;
      }
    } else {
      assert [tree] + texts == [tree];
    }
  }

  /** Within the limit, the context is the tree followed by the kept chunks,
      uncut. */
  lemma ContextWithinLimit(tok: Tokenizer, systemPrompt: string, tree: string,
                           files: seq<RelPath>, read: RelPath -> Option<string>)
    requires var kept := KeptChunks(CountTokens(tok, tree), FileChunks(tok, files, read),
                                    MaxContextTokens - CountTokens(tok, systemPrompt));
             CountTokens(tok, Join([tree] + Texts(kept), PartSeparator)) + CountTokens(tok, systemPrompt)
               <= MaxContextTokens
    ensures var kept := KeptChunks(CountTokens(tok, tree), FileChunks(tok, files, read),
                                   MaxContextTokens - CountTokens(tok, systemPrompt));
            var context := Context(tok, systemPrompt, tree, files, read);
            context == Join([tree] + Texts(kept), PartSeparator)
            && StartsWith(context, tree)
            && (|kept| > 0 ==> StartsWith(context, tree + PartSeparator + kept[0].text))
  {
    var kept := KeptChunks(CountTokens(tok, tree), FileChunks(tok, files, read),
                           MaxContextTokens - CountTokens(tok, systemPrompt));
    ContextCut(tok, systemPrompt, tree, files, read);
    JoinedStartsWithTree(tree, Texts(kept));
  }

  /** Over the limit, the context is cut and ends with the marker. */
  lemma ContextOverLimit(tok: Tokenizer, systemPrompt: string, tree: string,
                         files: seq<RelPath>, read: RelPath -> Option<string>)
    requires var kept := KeptChunks(CountTokens(tok, tree), FileChunks(tok, files, read),
                                    MaxContextTokens - CountTokens(tok, systemPrompt));
             CountTokens(tok, Join([tree] + Texts(kept), PartSeparator)) + CountTokens(tok, systemPrompt)
               > MaxContextTokens
    ensures EndsWith(Context(tok, systemPrompt, tree, files, read), TruncationMarker)
  {
    var budget := MaxContextTokens - CountTokens(tok, systemPrompt);
    var kept := KeptChunks(CountTokens(tok, tree), FileChunks(tok, files, read), budget);
    ContextCut(tok, systemPrompt, tree, files, read);
    TruncateToTokensCut(tok, Join([tree] + Texts(kept), PartSeparator), budget);
  }

  /** When every readable file fits beside the tree and the joined text is
      within the limit, the context is the whole tree and every chunk. */
  lemma ContextKeepsEverythingThatFits(tok: Tokenizer, systemPrompt: string, tree: string,
                                       files: seq<RelPath>, read: RelPath -> Option<string>)
    requires CountTokens(tok, tree) + TotalTokens(FileChunks(tok, files, read))
               <= MaxContextTokens - CountTokens(tok, systemPrompt)
    requires CountTokens(tok, Join([tree] + Texts(FileChunks(tok, files, read)), PartSeparator))
               + CountTokens(tok, systemPrompt) <= MaxContextTokens
    ensures Context(tok, systemPrompt, tree, files, read)
              == Join([tree] + Texts(FileChunks(tok, files, read)), PartSeparator)
  {
  }

  // ---------------------------------------------------------------------
  // The limit is not a guarantee

  /** Whether a number is a Unicode scalar value, i.e. names a `char`. */
  predicate IsScalarValue(n: int) {
    0 <= n < 0xD800 || 0xE000 <= n < 0x11_0000
  }

  /** A tokenizer with one token per character, its code point. Decoding maps
      a token back to its character, and anything else to U+FFFD, as decoding
      with `errors="replace"` does. */
  function CodePointTokenizer(): Tokenizer {
    Tokenizer(
      s => seq(|s|, i requires 0 <= i < |s| => s[i] as int),
      ts => seq(|ts|, i requires 0 <= i < |ts| => if IsScalarValue(ts[i]) then ts[i] as char else '\U{FFFD}'))
  }

  /** The tokenizer is faithful: decoding what it encodes gives the text back. */
  lemma CodePointRoundTrip(s: string)
    ensures CodePointTokenizer().decode(CodePointTokenizer().encode(s)) == s
  {
    var tok := CodePointTokenizer();
    var ts := tok.encode(s);
    forall i | 0 <= i < |s| ensures tok.decode(ts)[i] == s[i] {
      assert ts[i] == s[i] as int;
    }
  }

  /** The marker is appended after the cut, so a cut text without line breaks
      is longer in tokens than the bound it was cut to. */
  lemma {:induction false} TruncationOvershoots(text: string, maxTokens: nat)
    requires maxTokens < |text| && '\n' !in text
    ensures CountTokens(CodePointTokenizer(), TruncateToTokens(CodePointTokenizer(), text, maxTokens))
              == maxTokens + |TruncationMarker|
  {
    var tok := CodePointTokenizer();
    var d := tok.decode(SliceTo(tok.encode(text), maxTokens));
    CodePointRoundTrip(text[..maxTokens]);
    assert tok.encode(text)[..maxTokens] == tok.encode(text[..maxTokens]);
    assert d == text[..maxTokens];
    assert '\n' !in d;
    var r := TruncateToTokens(tok, text, maxTokens);
    assert r == d + TruncationMarker;
  }

  /** Hence a tree alone that is over the limit yields a context that is over
      the limit too, even after the final cut. */
  lemma ContextCanExceedLimit(tree: string)
    requires |tree| > MaxContextTokens && '\n' !in tree
    ensures CountTokens(CodePointTokenizer(), Context(CodePointTokenizer(), "", tree, [], _ => None))
              > MaxContextTokens
  {
    var tok := CodePointTokenizer();
    var chunks := FileChunks(tok, [], _ => None);
    assert chunks == [];
    assert Join([tree] + Texts(KeptChunks(CountTokens(tok, tree), chunks, MaxContextTokens)), PartSeparator) == tree;
    TruncationOvershoots(tree, MaxContextTokens);
  }
}

=== FILE: github_url.dfy ===
/** Step 1 of the pipeline: splitting a GitHub URL into owner and repository
    name. The URL has already been taken apart by `urlparse`; the model starts
    from its `hostname` (lower-cased, or `None`) and its `path`. */
module GitHubUrl {
  import opened Strings
  import opened Wrappers

  /** The three `ValueError`s `parse_github_url` raises. */
  datatype UrlError =
    | NotGitHub            // the host is not GitHub
    | MissingOwnerOrRepo   // fewer than two path segments
    | EmptyOwnerOrRepo     // a segment came out empty

  datatype RepoId = RepoId(owner: string, repo: string)

  const GitHubHosts: set<string> := {"github.com", "www.github.com"}

  /** `re.sub(r"\.git$", "", s)`. The anchor `$` matches at the end of the
      string and also just before a final newline, so `.git` is removed in
      either place; there can be only one such match. The second place only
      arises for a path that `urlparse` would not produce, since recent Python
      versions delete newlines from the URL before parsing. */
  function StripGitSuffix(s: string): (r: string)
    ensures EndsWith(s, ".git") ==> r + ".git" == s
    ensures !EndsWith(s, ".git") && EndsWith(s, ".git\n") ==>
              |r| > 0 && r[|r| - 1] == '\n' && r[..|r| - 1] + ".git\n" == s
    ensures !EndsWith(s, ".git") && !EndsWith(s, ".git\n") ==> r == s
    ensures forall ch :: ch in r ==> ch in s
  {
    if EndsWith(s, ".git") then
      assert s == s[..|s| - 4] + s[|s| - 4..];
      s[..|s| - 4]
    else if EndsWith(s, ".git\n") then
      var r := s[..|s| - 5] + "\n";
      assert r[..|r| - 1] == s[..|s| - 5];
      assert s == s[..|s| - 5] + s[|s| - 5..];
      assert forall ch :: ch in r ==> ch in s by {
        assert s[|s| - 1] == '\n';
        forall ch | ch in r ensures ch in s {
          if ch != '\n' {
            var k :| 0 <= k < |r| && r[k] == ch;
            assert s[k] == ch;
          }
        }
      }
      r
    else s
  }

  /** A stripped path that still holds a `/` begins with a non-empty segment. */
  lemma OwnerSegmentNonEmpty(path: string)
    requires '/' in Strip(path, '/')
    ensures Split(Strip(path, '/'), '/')[0] != ""
  {
    var s := Strip(path, '/');
    assert s[0] != '/';
    var rest := Split(s[1..], '/');
    assert Split(s, '/')[0] == [s[0]] + rest[0];
  }

  /** `parse_github_url`, from the parsed hostname and path. */
  function ParseGitHubUrl(hostname: Option<string>, path: string): (r: Result<RepoId, UrlError>)
    ensures r == Err(NotGitHub) <==> hostname.None? || hostname.value !in GitHubHosts
    ensures r == Err(MissingOwnerOrRepo) <==>
              hostname.Some? && hostname.value in GitHubHosts && '/' !in Strip(path, '/')
    ensures r == Err(EmptyOwnerOrRepo) <==>
              hostname.Some? && hostname.value in GitHubHosts
              && var segments := Split(Strip(path, '/'), '/');
                 |segments| >= 2 && StripGitSuffix(segments[1]) == ""
    ensures r.Ok? ==>
              hostname.Some? && hostname.value in GitHubHosts
              && var segments := Split(Strip(path, '/'), '/');
                 |segments| >= 2
                 && r.value.owner == segments[0]
                 && r.value.repo == StripGitSuffix(segments[1])
    ensures r.Ok? ==>
              r.value.owner != "" && r.value.repo != ""
              && '/' !in r.value.owner && '/' !in r.value.repo
  {
    if hostname.None? || hostname.value !in GitHubHosts then Err(NotGitHub)
    else
      var parts := Split(Strip(path, '/'), '/');
      SplitSingle(Strip(path, '/'), '/');
      if |parts| < 2 then Err(MissingOwnerOrRepo)
      else
        var owner := parts[0];
        var repo := StripGitSuffix(parts[1]);
        OwnerSegmentNonEmpty(path);
        if owner == "" || repo == "" then Err(EmptyOwnerOrRepo)
        else Ok(RepoId(owner, repo))
  }

  /** Stripping `//owner/name...` leaves the path without its leading slashes
      and without the trailing slashes of its tail. */
  lemma {:induction false} StripOwnerPath(lead: string, owner: string, name: string, rest: string)
    requires forall i :: 0 <= i < |lead| ==> lead[i] == '/'
    requires owner != "" && '/' !in owner
    requires name != "" && '/' !in name
    ensures Strip(lead + owner + "/" + name + rest, '/') == owner + "/" + name + TrimRight(rest, '/')
  {
    var body := owner + "/" + name;
    assert lead + owner + "/" + name + rest == lead + (body + rest);
    assert (body + rest)[0] == owner[0];
    assert owner[0] in owner;
    TrimLeftLead(lead, body + rest, '/');
    assert body[|body| - 1] == name[|name| - 1];
    assert name[|name| - 1] in name;
    TrimRightAppend(body, rest, '/');
  }

  /** The first two segments of `owner/name` followed by a slash-led tail. */
  lemma {:induction false} SplitOwnerPath(owner: string, name: string, tail: string)
    requires '/' !in owner && '/' !in name
    requires tail == "" || tail[0] == '/'
    ensures var segments := Split(owner + "/" + name + tail, '/');
            |segments| >= 2 && segments[0] == owner && segments[1] == name
  {
    if tail == "" {
      assert owner + "/" + name + tail == owner + ['/'] + name;
      SplitAfterPiece(owner, '/', name);
    } else {
      assert owner + "/" + name + tail == owner + ['/'] + (name + ['/'] + tail[1..]);
      SplitAfterPiece(owner, '/', name + ['/'] + tail[1..]);
      SplitAfterPiece(name, '/', tail[1..]);
    }
  }

  /** Leading and trailing slashes and every segment after the second are
      ignored: `//owner/name.git/tree/main/` names repository `name` of `owner`,
      and a name of just `.git` is the empty-repository error. */
  lemma {:induction false} ParseIgnoresExtraSegments(host: string, lead: string, owner: string, name: string, rest: string)
    requires host in GitHubHosts
    requires forall i :: 0 <= i < |lead| ==> lead[i] == '/'
    requires owner != "" && '/' !in owner
    requires name != "" && '/' !in name
    requires rest == "" || rest[0] == '/'
    ensures ParseGitHubUrl(Some(host), lead + owner + "/" + name + rest) ==
              if StripGitSuffix(name) == "" then Err(EmptyOwnerOrRepo)
              else Ok(RepoId(owner, StripGitSuffix(name)))
  {
    var tail := TrimRight(rest, '/');
    StripOwnerPath(lead, owner, name, rest);
    assert tail == "" || tail[0] == '/';
    SplitOwnerPath(owner, name, tail);
  }
}

=== FILE: paths.dfy ===
/** Repository-relative paths, as the parts of a `pathlib` path. */
module Paths {
  import opened Strings

  /** The parts of a file's path relative to the repository root
      (`f.relative_to(repo_path).parts`); a file has at least its own name. */
  type RelPath = p: seq<string> | |p| > 0 witness [""]

  /** `str(rel)`: the parts joined with `/`. */
  function PathString(p: seq<string>): string {
    Join(p, "/")
  }

  /** `rel.name`: the last part. */
  function Name(p: RelPath): string {
    p[|p| - 1]
  }

  /** No element occurs twice. */
  predicate NoDuplicates<T(==)>(s: seq<T>) {
    forall i, j :: 0 <= i < j < |s| ==> s[i] != s[j]
  }

  /** Without repeats, every element occurs at most once. */
  lemma {:induction false} NoDuplicatesCount<T>(s: seq<T>, x: T)
    requires NoDuplicates(s)
    ensures multiset(s)[x] <= 1
  {
    if |s| > 0 {
      var init := s[..|s| - 1];
      assert s == init + [s[|s| - 1]];
      assert NoDuplicates(init);
      NoDuplicatesCount(init, x);
      if x == s[|s| - 1] {
        assert x !in init;
      }
    }
  }

  /** A permutation of a list without repeats has none either. */
  lemma NoDuplicatesPermutation<T>(a: seq<T>, b: seq<T>)
    requires multiset(a) == multiset(b) && NoDuplicates(a)
    ensures NoDuplicates(b)
  {
    forall i, j | 0 <= i < j < |b| ensures b[i] != b[j] {
      if b[i] == b[j] {
        var x := b[j];
        assert b == b[..j] + [x] + b[j + 1..];
        assert x in b[..j];
        assert multiset(b)[x] >= 2;
        NoDuplicatesCount(a, x);
        assert false;
      }
    }
  }

  /** `d` is a directory on the way from the root to `f` (one of `f`'s `parents`
      other than the root itself). */
  predicate IsAncestor(d: seq<string>, f: seq<string>) {
    1 <= |d| < |f| && f[..|d|] == d
  }
}

=== FILE: scanner.dfy ===
/** Step 3 of the pipeline, `collect_files`: which files of the cloned
    repository are eligible, and in what order they are returned.
    The directory walk is replaced by the list of every file in the tree, each
    with its path relative to the repository root and the outcome of `stat`;
    the walk's pruning of `dirs[:]` becomes a filter on that list. */
module Scanner {
  import opened Strings
  import opened Paths

  /** Directory names the walk never descends into. */
  const SkipDirs: set<string> := {
    "node_modules", ".git", "__pycache__", ".venv", "venv", "env",
    "dist", "build", ".next", ".nuxt", "vendor", ".tox", ".mypy_cache",
    ".pytest_cache", "coverage", ".idea", ".vscode"
  }

  /** File-name endings that mark a file as noise. */
  const SkipExtensions: set<string> := {
    ".png", ".jpg", ".jpeg", ".gif", ".svg", ".ico", ".webp",
    ".mp4", ".mp3", ".wav", ".mov",
    ".woff", ".woff2", ".ttf", ".eot",
    ".pdf", ".zip", ".tar", ".gz", ".bz2",
    ".lock", ".min.js", ".min.css",
    ".pyc", ".pyo", ".so", ".dll", ".dylib",
    ".DS_Store", ".gitignore"
  }

  /** Largest file size, in bytes, that is kept. */
  const MaxFileSize: nat := 100_000

  /** The outcome of `filepath.stat()`: a size, or an `OSError`. */
  datatype Stat = Size(bytes: nat) | StatFailed

  /** A file the walk would list, before any filtering. */
  datatype Entry = Entry(path: RelPath, stat: Stat)

  /** Some directory on the way to the file is pruned from the walk. */
  predicate UnderSkippedDir(p: RelPath) {
    exists i :: 0 <= i < |p| - 1 && p[i] in SkipDirs
  }

  /** `any(filename.endswith(ext) for ext in SKIP_EXTENSIONS)` */
  predicate HasSkippedSuffix(filename: string) {
    exists ext :: ext in SkipExtensions && EndsWith(filename, ext)
  }

  /** `stat` succeeded and reported at most `MaxFileSize` bytes. */
  predicate SizeAllowed(stat: Stat) {
    stat.Size? && stat.bytes <= MaxFileSize
  }

  /** All three rules of `collect_files` let the file through. */
  predicate Eligible(e: Entry) {
    !UnderSkippedDir(e.path) && !HasSkippedSuffix(Name(e.path)) && SizeAllowed(e.stat)
  }

  /** The paths of the eligible entries, in walk order. */
  function EligiblePaths(entries: seq<Entry>): (r: seq<RelPath>)
    ensures |r| <= |entries|
    ensures forall p :: p in r <==> exists e :: e in entries && Eligible(e) && e.path == p
  {
    if |entries| == 0 then []
    else
      var init := entries[..|entries| - 1];
      var last := entries[|entries| - 1];
      assert entries == init + [last];
      EligiblePaths(init) + (if Eligible(last) then [last.path] else [])
  }

  /** No two entries of the tree share a path. */
  predicate DistinctPaths(entries: seq<Entry>) {
    forall i, j :: 0 <= i < j < |entries| ==> entries[i].path != entries[j].path
  }

  /** Each eligible file contributes its path once. */
  lemma {:induction false} EligiblePathsOnce(entries: seq<Entry>)
    requires DistinctPaths(entries)
    ensures NoDuplicates(EligiblePaths(entries))
  {
    if |entries| > 0 {
      var init := entries[..|entries| - 1];
      var last := entries[|entries| - 1];
      assert DistinctPaths(init);
      EligiblePathsOnce(init);
      forall e | e in init ensures e.path != last.path {
        var k :| 0 <= k < |init| && init[k] == e;
        assert entries[k] == e;
      }
      assert Eligible(last) ==> last.path !in EligiblePaths(init);
      assert entries == init + [last];
    }
  }

  /** Ordered by `str(relative path)`, as `sorted(..., key=...)` leaves them. */
  predicate SortedByPath(s: seq<RelPath>) {
    forall i, j :: 0 <= i < j < |s| ==> LexLe(PathString(s[i]), PathString(s[j]))
  }

  /** A lower bound of `p` and of every path in `s` bounds every path of a
      permutation of `s` with `p` added. */
  lemma BoundedByHead(h: RelPath, p: RelPath, s: seq<RelPath>, rest: seq<RelPath>)
    requires LexLe(PathString(h), PathString(p))
    requires forall j :: 0 <= j < |s| ==> LexLe(PathString(h), PathString(s[j]))
    requires multiset(rest) == multiset(s) + multiset{p}
    ensures forall x :: x in rest ==> LexLe(PathString(h), PathString(x))
  {
    forall x | x in rest ensures LexLe(PathString(h), PathString(x)) {
      assert x in multiset(rest);
      if x != p {
        assert x in multiset(s);
        var j :| 0 <= j < |s| && s[j] == x;
      }
    }
  }

  /** Inserts `p` after every path that does not sort above it. */
  function InsertByPath(p: RelPath, s: seq<RelPath>): (r: seq<RelPath>)
    requires SortedByPath(s)
    ensures SortedByPath(r)
    ensures multiset(r) == multiset(s) + multiset{p}
  {
    if |s| == 0 then [p]
    else if !LexLe(PathString(s[0]), PathString(p)) then
      LexLeTotal(PathString(s[0]), PathString(p));
      forall j | 0 < j < |s| ensures LexLe(PathString(p), PathString(s[j])) {
        LexLeTransitive(PathString(p), PathString(s[0]), PathString(s[j]));
      }
      [p] + s
    else
      var rest := InsertByPath(p, s[1..]);
      BoundedByHead(s[0], p, s[1..], rest);
      assert s == [s[0]] + s[1..];
      [s[0]] + rest
  }

  /** `sorted(result, key=lambda f: str(f.relative_to(repo_path)))` */
  function SortByPath(s: seq<RelPath>): (r: seq<RelPath>)
    ensures SortedByPath(r)
    ensures multiset(r) == multiset(s)
  {
    if |s| == 0 then []
    else
      assert s == s[..|s| - 1] + [s[|s| - 1]];
      InsertByPath(s[|s| - 1], SortByPath(s[..|s| - 1]))
  }

  /** `collect_files`: keeps the eligible files and sorts them by path. */
  method CollectFiles(entries: seq<Entry>) returns (files: seq<RelPath>)
    ensures files == SortByPath(EligiblePaths(entries))
    ensures SortedByPath(files)
    ensures forall p :: p in files <==> exists e :: e in entries && Eligible(e) && e.path == p
    ensures forall p :: p in files ==>
              !UnderSkippedDir(p) && !HasSkippedSuffix(Name(p))
    ensures |files| <= |entries|
    ensures DistinctPaths(entries) ==> NoDuplicates(files)
  {
    var result: seq<RelPath> := [];
    for k := 0 to |entries|
      invariant result == EligiblePaths(entries[..k])
    {
      assert entries[..k + 1] == entries[..k] + [entries[k]];
      var entry := entries[k];
      // the walk prunes `dirs[:]`, so nothing below a skipped directory is reached
      if UnderSkippedDir(entry.path) {
        continue;
      }
      var filename := Name(entry.path);
      if HasSkippedSuffix(filename) {
        continue;
      }
      match entry.stat {
        case StatFailed =>
          continue;
        case Size(bytes) =>
          if bytes > MaxFileSize {
            continue;
          }
      }
      result := result + [entry.path];
    }
    assert entries[..|entries|] == entries;
    files := SortByPath(result);
    assert forall p :: p in files <==> p in result by {
      forall p ensures p in files <==> p in result {
        assert p in files <==> p in multiset(files);
        assert p in result <==> p in multiset(result);
      }
    }
    assert |files| == |multiset(files)| == |multiset(result)| == |result|;
    if DistinctPaths(entries) {
      EligiblePathsOnce(entries);
      NoDuplicatesPermutation(result, files);
    }
  }

  /** The size ceiling is inclusive: a file of exactly `MaxFileSize` bytes is
      collected, one byte more or a failed `stat` drops it. */
  lemma SizeCeilingIsInclusive(p: RelPath)
    requires !UnderSkippedDir(p) && !HasSkippedSuffix(Name(p))
    ensures EligiblePaths([Entry(p, Size(MaxFileSize))]) == [p]
    ensures EligiblePaths([Entry(p, Size(MaxFileSize + 1))]) == []
    ensures EligiblePaths([Entry(p, StatFailed)]) == []
  {
  }

  /** Whatever its name or size, a file with a skipped directory at any depth
      on its way is never collected, whatever else the tree holds. */
  lemma SkippedDirectoryIsPruned(entries: seq<Entry>, p: RelPath, i: nat)
    requires i < |p| - 1 && p[i] in SkipDirs
    ensures p !in EligiblePaths(entries)
  {
    assert UnderSkippedDir(p);
  }
}

=== FILE: selector.dfy ===
/** Step 5 of the pipeline, the part of `select_important_files` that runs
    after the language model has answered: the list of path strings in its
    reply is mapped back onto the collected files, in the reply's order,
    without repeats and at most `MaxSelected` of them. The model call and the
    decoding of its JSON reply are not part of this model; it starts from the
    decoded list. */
module Selector {
  import opened Paths

  /** The cap on selected files. */
  const MaxSelected: nat := 20

  /** `rel_to_abs`: each file under its path string; when two files share a
      path string the later one wins, as in a dict comprehension. */
  function PathIndex(files: seq<RelPath>): (index: map<string, RelPath>)
    ensures IndexNamesFiles(index)
    ensures forall f :: f in files ==> PathString(f) in index
  {
    if |files| == 0 then map[]
    else
      var f := files[|files| - 1];
      PathIndex(files[..|files| - 1])[PathString(f) := f]
  }

  /** Every file the index maps to is one of the files. */
  lemma {:induction false} PathIndexValues(files: seq<RelPath>, key: string)
    requires key in PathIndex(files)
    ensures PathIndex(files)[key] in files
  {
    var init := files[..|files| - 1];
    if key != PathString(files[|files| - 1]) {
      PathIndexValues(init, key);
    }
  }

  /** Every key of the index names the file it maps to. */
  predicate IndexNamesFiles(index: map<string, RelPath>) {
    forall key :: key in index ==> PathString(index[key]) == key
  }

  /** The reply's strings that name a known file, mapped to that file, in reply order. */
  function Resolve(reply: seq<string>, index: map<string, RelPath>): seq<RelPath> {
    if |reply| == 0 then []
    else
      var rel := reply[|reply| - 1];
      Resolve(reply[..|reply| - 1], index) + (if rel in index then [index[rel]] else [])
  }

  /** The first occurrence of each element, in order. */
  function Dedup(s: seq<RelPath>): seq<RelPath> {
    if |s| == 0 then []
    else
      var d := Dedup(s[..|s| - 1]);
      if s[|s| - 1] in d then d else d + [s[|s| - 1]]
  }

  /** At most `n` leading elements. */
  function Take(s: seq<RelPath>, n: nat): seq<RelPath> {
    if |s| <= n then s else s[..n]
  }

  /** The reference result: the resolved reply without repeats, cut at the cap. */
  function Selection(reply: seq<string>, index: map<string, RelPath>): seq<RelPath> {
    Take(Dedup(Resolve(reply, index)), MaxSelected)
  }

  /** The index of the first occurrence of `x` in `s`. */
  function IndexOf(s: seq<string>, x: string): (r: nat)
    requires x in s
    ensures r < |s| && s[r] == x && x !in s[..r]
  {
    if s[0] == x then 0
    else
      assert x in s[1..] by {
        var k :| 0 <= k < |s| && s[k] == x;
        assert s[1..][k - 1] == x;
      }
      var r := 1 + IndexOf(s[1..], x);
      assert s[..r] == [s[0]] + s[1..][..r - 1];
      r
  }

  /** One more reply string adds at most its file, and only when it is new. */
  lemma DedupResolveStep(reply: seq<string>, index: map<string, RelPath>, i: nat)
    requires i < |reply|
    ensures var d := Dedup(Resolve(reply[..i], index));
            Dedup(Resolve(reply[..i + 1], index)) ==
              if reply[i] in index && index[reply[i]] !in d then d + [index[reply[i]]] else d
  {
    var r0 := Resolve(reply[..i], index);
    assert reply[..i + 1][..i] == reply[..i];
    if reply[i] in index {
      var r := r0 + [index[reply[i]]];
      assert Resolve(reply[..i + 1], index) == r;
      assert r[..|r| - 1] == r0;
    } else {
      assert Resolve(reply[..i + 1], index) == r0;
    }
  }

  // ---------------------------------------------------------------------
  // Properties of the reference result

  lemma {:induction false} ResolveMembers(reply: seq<string>, index: map<string, RelPath>)
    ensures forall f :: f in Resolve(reply, index) <==>
              exists rel :: rel in reply && rel in index && index[rel] == f
  {
    if |reply| > 0 {
      var init := reply[..|reply| - 1];
      var rel := reply[|reply| - 1];
      assert reply == init + [rel];
      ResolveMembers(init, index);
      forall f | exists r :: r in reply && r in index && index[r] == f
        ensures f in Resolve(reply, index)
      {
        var r :| r in reply && r in index && index[r] == f;
        assert r in init || r == rel;
      }
    }
  }

  lemma {:induction false} DedupProperties(s: seq<RelPath>)
    ensures forall x :: x in Dedup(s) <==> x in s
    ensures NoDuplicates(Dedup(s))
    ensures |Dedup(s)| <= |s|
  {
    if |s| > 0 {
      var init := s[..|s| - 1];
      assert s == init + [s[|s| - 1]];
      DedupProperties(init);
    }
  }

  /** Removing repeats from a longer list only adds at the end. */
  lemma {:induction false} DedupPrefix(s: seq<RelPath>, k: nat)
    requires k <= |s|
    ensures |Dedup(s[..k])| <= |Dedup(s)| && Dedup(s[..k]) == Dedup(s)[..|Dedup(s[..k])|]
  {
    if k < |s| {
      var init := s[..|s| - 1];
      assert s[..k] == init[..k];
      DedupPrefix(init, k);
    } else {
      assert s[..k] == s;
    }
  }

  lemma {:induction false} ResolvePrefix(reply: seq<string>, index: map<string, RelPath>, k: nat)
    requires k <= |reply|
    ensures |Resolve(reply[..k], index)| <= |Resolve(reply, index)|
    ensures Resolve(reply[..k], index) == Resolve(reply, index)[..|Resolve(reply[..k], index)|]
  {
    if k < |reply| {
      var init := reply[..|reply| - 1];
      assert reply[..k] == init[..k];
      ResolvePrefix(init, index, k);
    } else {
      assert reply[..k] == reply;
    }
  }

  /** A file not yet selected was not named earlier in the reply. */
  lemma UnseenFileUnnamed(reply: seq<string>, index: map<string, RelPath>, rel: string)
    requires rel in index && index[rel] !in Dedup(Resolve(reply, index))
    ensures rel !in reply
  {
    ResolveMembers(reply, index);
    DedupProperties(Resolve(reply, index));
  }

  /** Files come out in the order in which the reply first names them. */
  lemma {:induction false} DedupFollowsReply(reply: seq<string>, index: map<string, RelPath>)
    requires IndexNamesFiles(index)
    ensures forall f :: f in Dedup(Resolve(reply, index)) ==> PathString(f) in reply
    ensures forall a, b :: 0 <= a < b < |Dedup(Resolve(reply, index))| ==>
              IndexOf(reply, PathString(Dedup(Resolve(reply, index))[a])) <
              IndexOf(reply, PathString(Dedup(Resolve(reply, index))[b]))
  {
    if |reply| > 0 {
      var init := reply[..|reply| - 1];
      var rel := reply[|reply| - 1];
      assert reply == init + [rel];
      DedupFollowsReply(init, index);
      var d0 := Dedup(Resolve(init, index));
      var d := Dedup(Resolve(reply, index));
      assert reply[..|reply|] == reply;
      DedupResolveStep(reply, index, |reply| - 1);
      forall f | f in d0 ensures IndexOf(reply, PathString(f)) == IndexOf(init, PathString(f)) {
        var k := IndexOf(init, PathString(f));
        assert reply[k] == PathString(f) && PathString(f) !in reply[..k] by {
          assert reply[..k] == init[..k];
        }
        IndexOfUnique(reply, PathString(f), k);
      }
      if d != d0 {
        var f := index[rel];
        assert d == d0 + [f];
        UnseenFileUnnamed(init, index, rel);
        IndexOfUnique(reply, rel, |reply| - 1);
        forall a, b | 0 <= a < b < |d|
          ensures IndexOf(reply, PathString(d[a])) < IndexOf(reply, PathString(d[b]))
        {
          assert d[a] == d0[a];
          if b < |d0| {
            assert d[b] == d0[b];
          }
        }
      }
    }
  }

  lemma IndexOfUnique(s: seq<string>, x: string, k: nat)
    requires k < |s| && s[k] == x && x !in s[..k]
    ensures IndexOf(s, x) == k
  {
  }

  /** Prefix facts: a prefix of a list without repeats has none, and keeps
      each element's relative order. */
  lemma TakeKeeps(d: seq<RelPath>, n: nat)
    ensures Take(d, n) == d[..|Take(d, n)|] && |Take(d, n)| <= n
    ensures NoDuplicates(d) ==> NoDuplicates(Take(d, n))
    ensures forall f :: f in Take(d, n) ==> f in d
    ensures |Take(d, n)| < n ==> Take(d, n) == d
  {
  }

  /** The selection never holds a file twice, and its files come in the order
      in which the reply first names them. */
  lemma SelectionOrdered(reply: seq<string>, index: map<string, RelPath>)
    requires IndexNamesFiles(index)
    ensures var sel := Selection(reply, index);
            NoDuplicates(sel)
            && (forall f :: f in sel ==> PathString(f) in reply)
            && forall a, b :: 0 <= a < b < |sel| ==>
                 IndexOf(reply, PathString(sel[a])) < IndexOf(reply, PathString(sel[b]))
  {
    var d := Dedup(Resolve(reply, index));
    DedupProperties(Resolve(reply, index));
    DedupFollowsReply(reply, index);
    TakeKeeps(d, MaxSelected);
  }

  /** Every selected file is a known file that the reply names. */
  lemma SelectionMembers(reply: seq<string>, index: map<string, RelPath>)
    requires IndexNamesFiles(index)
    ensures forall f :: f in Selection(reply, index) ==>
              PathString(f) in reply && PathString(f) in index && index[PathString(f)] == f
  {
    var d := Dedup(Resolve(reply, index));
    DedupProperties(Resolve(reply, index));
    ResolveMembers(reply, index);
    TakeKeeps(d, MaxSelected);
    forall f | f in Selection(reply, index)
      ensures PathString(f) in reply && PathString(f) in index && index[PathString(f)] == f
    {
      var rel :| rel in reply && rel in index && index[rel] == f;
    }
  }

  /** Below the cap, nothing the reply names is left out. */
  lemma SelectionComplete(reply: seq<string>, index: map<string, RelPath>)
    ensures |Selection(reply, index)| < MaxSelected ==>
              forall rel :: rel in reply && rel in index ==> index[rel] in Selection(reply, index)
  {
    var d := Dedup(Resolve(reply, index));
    DedupProperties(Resolve(reply, index));
    ResolveMembers(reply, index);
    TakeKeeps(d, MaxSelected);
  }

  /** The loop stops at the end of the reply or at the cap; either way it has
      produced the reference result. */
  lemma LoopExitIsSelection(reply: seq<string>, index: map<string, RelPath>, i: nat, ordered: seq<RelPath>)
    requires i <= |reply|
    requires ordered == Dedup(Resolve(reply[..i], index))
    requires |ordered| <= MaxSelected
    requires i < |reply| ==> |ordered| == MaxSelected
    ensures ordered == Selection(reply, index)
  {
    var all := Resolve(reply, index);
    ResolvePrefix(reply, index, i);
    DedupPrefix(all, |Resolve(reply[..i], index)|);
    assert all[..|Resolve(reply[..i], index)|] == Resolve(reply[..i], index);
    if i == |reply| {
      assert reply[..i] == reply;
    }
  }

  /** The selection is the first files the reply names: it is a prefix of
      all the known files in order of first mention, and any known path first
      named before the last selected file is selected. */
  lemma SelectionFirstNamed(reply: seq<string>, index: map<string, RelPath>)
    requires IndexNamesFiles(index)
    ensures var sel := Selection(reply, index);
            sel == Dedup(Resolve(reply, index))[..|sel|]
            && forall rel ::
                 (rel in reply && rel in index && |sel| > 0 && PathString(sel[|sel| - 1]) in reply
                  && IndexOf(reply, rel) < IndexOf(reply, PathString(sel[|sel| - 1])))
                 ==> index[rel] in sel
  {
    var all := Resolve(reply, index);
    var d := Dedup(all);
    var sel := Selection(reply, index);
    TakeKeeps(d, MaxSelected);
    DedupProperties(all);
    ResolveMembers(reply, index);
    DedupFollowsReply(reply, index);
    forall rel | rel in reply && rel in index && |sel| > 0
        && PathString(sel[|sel| - 1]) in reply
        && IndexOf(reply, rel) < IndexOf(reply, PathString(sel[|sel| - 1]))
      ensures index[rel] in sel
    {
      var f := index[rel];
      assert f in all;
      var j :| 0 <= j < |d| && d[j] == f;
      assert d[|sel| - 1] == sel[|sel| - 1] && PathString(f) == rel;
      if j >= |sel| {
        assert false;
      }
      assert sel[j] == f;
    }
  }

  /** What the selection promises about the collected files. */
  lemma SelectionSpec(reply: seq<string>, allFiles: seq<RelPath>)
    ensures var sel := Selection(reply, PathIndex(allFiles));
            |sel| <= MaxSelected
            && NoDuplicates(sel)
            && (forall f :: f in sel ==> f in allFiles && PathString(f) in reply)
            && (forall a, b :: 0 <= a < b < |sel| ==>
                  IndexOf(reply, PathString(sel[a])) < IndexOf(reply, PathString(sel[b])))
            && (|sel| < MaxSelected ==>
                  forall rel :: rel in reply && rel in PathIndex(allFiles) ==> PathIndex(allFiles)[rel] in sel)
            && sel == Dedup(Resolve(reply, PathIndex(allFiles)))[..|sel|]
            && (forall rel ::
                  (rel in reply && rel in PathIndex(allFiles) && |sel| > 0
                   && IndexOf(reply, rel) < IndexOf(reply, PathString(sel[|sel| - 1])))
                  ==> PathIndex(allFiles)[rel] in sel)
  {
    var index := PathIndex(allFiles);
    var sel := Selection(reply, index);
    SelectionFirstNamed(reply, index);
    TakeKeeps(Dedup(Resolve(reply, index)), MaxSelected);
    SelectionOrdered(reply, index);
    SelectionMembers(reply, index);
    SelectionComplete(reply, index);
    forall f | f in sel ensures f in allFiles {
      PathIndexValues(allFiles, PathString(f));
    }
  }

  // ---------------------------------------------------------------------
  // The loop

  /** The map-back loop of `select_important_files`; what its result promises
      beyond the cap and the absence of repeats is `SelectionSpec`. */
  method SelectFiles(reply: seq<string>, allFiles: seq<RelPath>) returns (ordered: seq<RelPath>)
    ensures ordered == Selection(reply, PathIndex(allFiles))
    ensures |ordered| <= MaxSelected && NoDuplicates(ordered)
  {
    var relToAbs := PathIndex(allFiles);
    ordered := [];
    var i := 0;
    while i < |reply|
      invariant 0 <= i <= |reply|
      invariant ordered == Dedup(Resolve(reply[..i], relToAbs))
      invariant |ordered| < MaxSelected
    {
      var rel := reply[i];
      DedupResolveStep(reply, relToAbs, i);
      if rel in relToAbs && relToAbs[rel] !in ordered {
        ordered := ordered + [relToAbs[rel]];
      }
      i := i + 1;
      if |ordered| >= MaxSelected {
        break;
      }
    }
    LoopExitIsSelection(reply, relToAbs, i, ordered);
    SelectionSpec(reply, allFiles);
  }
}

=== FILE: strings.dfy ===
/** Python string helpers used by the context-assembly pipeline:
    `str.endswith`, `sep.join`, `str.split(sep)`, `str.strip(ch)`,
    `str.rfind(ch)` and the code-point ordering of `<` on `str`. */
module Strings {

  /** `s.endswith(suffix)` */
  predicate EndsWith(s: string, suffix: string) {
    |suffix| <= |s| && s[|s| - |suffix|..] == suffix
  }

  /** `s.startswith(prefix)` */
  predicate StartsWith(s: string, prefix: string) {
    |prefix| <= |s| && s[..|prefix|] == prefix
  }

  /** `sep.join(parts)` */
  function Join(parts: seq<string>, sep: string): string {
    if |parts| == 0 then ""
    else if |parts| == 1 then parts[0]
    else parts[0] + sep + Join(parts[1..], sep)
  }

  /** Joining two non-empty lists puts exactly one separator between them. */
  lemma {:induction false} JoinAppend(a: seq<string>, b: seq<string>, sep: string)
    requires |a| > 0 && |b| > 0
    ensures Join(a + b, sep) == Join(a, sep) + sep + Join(b, sep)
  {
    if |a| == 1 {
      assert (a + b)[1..] == b;
    } else {
      assert (a + b)[1..] == a[1..] + b;
      JoinAppend(a[1..], b, sep);
    }
  }

  /** `s.rfind(c)`: the index of the last `c` in `s`, or -1 when there is none. */
  function RFind(s: string, c: char): (r: int)
    ensures -1 <= r < |s|
    ensures r == -1 <==> c !in s
    ensures r >= 0 ==> s[r] == c && forall i :: r < i < |s| ==> s[i] != c
  {
    if |s| == 0 then -1
    else if s[|s| - 1] == c then |s| - 1
    else RFind(s[..|s| - 1], c)
  }

  /** `s.split(c)` for a one-character separator: the pieces between the
      separators, empty pieces included; it is the inverse of `Join`. */
  function Split(s: string, c: char): (parts: seq<string>)
    ensures |parts| >= 1
    ensures forall i :: 0 <= i < |parts| ==> c !in parts[i]
    ensures Join(parts, [c]) == s
  {
    if |s| == 0 then [""]
    else
      var rest := Split(s[1..], c);
      if s[0] == c then
        assert s == [c] + s[1..];
        [""] + rest
      else
        var parts := [[s[0]] + rest[0]] + rest[1..];
        assert parts[1..] == rest[1..];
        assert s == [s[0]] + s[1..];
        parts
  }

  /** There is more than one piece exactly when the separator occurs. */
  lemma {:induction false} SplitSingle(s: string, c: char)
    ensures |Split(s, c)| == 1 <==> c !in s
  {
    if |s| > 0 {
      SplitSingle(s[1..], c);
      assert s == [s[0]] + s[1..];
    }
  }

  /** A separator-free prefix followed by the separator splits off as the first piece. */
  lemma {:induction false} SplitAfterPiece(a: string, c: char, rest: string)
    requires c !in a
    ensures Split(a + [c] + rest, c) == [a] + Split(rest, c)
  {
    if |a| == 0 {
      assert a + [c] + rest == [c] + rest;
      assert ([c] + rest)[1..] == rest;
    } else {
      var s := a + [c] + rest;
      assert s[1..] == a[1..] + [c] + rest;
      SplitAfterPiece(a[1..], c, rest);
      assert [a[0]] + a[1..] == a;
    }
  }

  /** Splitting a join of separator-free pieces gives the pieces back. */
  lemma {:induction false} SplitJoin(parts: seq<string>, c: char)
    requires |parts| >= 1
    requires forall i :: 0 <= i < |parts| ==> c !in parts[i]
    ensures Split(Join(parts, [c]), c) == parts
  {
    if |parts| > 1 {
      SplitJoin(parts[1..], c);
      SplitAfterPiece(parts[0], c, Join(parts[1..], [c]));
      assert [parts[0]] + parts[1..] == parts;
    }
  }

  /** `s.lstrip(c)` */
  function TrimLeft(s: string, c: char): (r: string)
    ensures |r| <= |s| && r == s[|s| - |r|..]
    ensures |r| > 0 ==> r[0] != c
    ensures forall i :: 0 <= i < |s| - |r| ==> s[i] == c
  {
    if |s| > 0 && s[0] == c then TrimLeft(s[1..], c) else s
  }

  /** A run of separators is all that `lstrip` removes before a non-separator. */
  lemma {:induction false} TrimLeftLead(lead: string, s: string, c: char)
    requires forall i :: 0 <= i < |lead| ==> lead[i] == c
    requires |s| > 0 && s[0] != c
    ensures TrimLeft(lead + s, c) == s
  {
    if |lead| == 0 {
      assert lead + s == s;
    } else {
      assert (lead + s)[1..] == lead[1..] + s;
      TrimLeftLead(lead[1..], s, c);
    }
  }

  /** `s.rstrip(c)` */
  function TrimRight(s: string, c: char): (r: string)
    ensures |r| <= |s| && r == s[..|r|]
    ensures |r| > 0 ==> r[|r| - 1] != c
    ensures forall i :: |r| <= i < |s| ==> s[i] == c
  {
    if |s| > 0 && s[|s| - 1] == c then TrimRight(s[..|s| - 1], c) else s
  }

  /** Trailing separators of a suffix never reach a prefix that does not end in one. */
  lemma {:induction false} TrimRightAppend(a: string, b: string, c: char)
    requires |a| > 0 && a[|a| - 1] != c
    ensures TrimRight(a + b, c) == a + TrimRight(b, c)
  {
    if |b| > 0 && b[|b| - 1] == c {
      assert (a + b)[..|a + b| - 1] == a + b[..|b| - 1];
      TrimRightAppend(a, b[..|b| - 1], c);
    } else {
      assert |a + b| > 0 && (a + b)[|a + b| - 1] != c;
    }
  }

  /** `r` is the slice of `s` starting at `i`, and everything outside it is `c`. */
  predicate IsStrippedSlice(s: string, r: string, i: int, c: char) {
    0 <= i <= |s| - |r| && r == s[i..i + |r|]
    && (forall k :: 0 <= k < i ==> s[k] == c)
    && (forall k :: i + |r| <= k < |s| ==> s[k] == c)
  }

  /** `s.strip(c)`: `s` with every leading and trailing `c` removed. */
  function Strip(s: string, c: char): (r: string)
    ensures |r| <= |s|
    ensures |r| > 0 ==> r[0] != c && r[|r| - 1] != c
  {
    TrimRight(TrimLeft(s, c), c)
  }

  /** What `Strip` removes is only `c`s, from the two ends: the result is a
      slice of `s` with nothing but `c` around it. */
  lemma StripSlice(s: string, c: char)
    ensures exists i :: IsStrippedSlice(s, Strip(s, c), i, c)
  {
    var left := TrimLeft(s, c);
    var r := TrimRight(left, c);
    assert r == Strip(s, c);
    var i := |s| - |left|;
    assert left == s[i..];
    assert r == left[..|r|];
    assert s[i..][..|r|] == s[i..i + |r|];
    assert forall k :: 0 <= k < i ==> s[k] == c;
    assert forall k :: |r| <= k < |left| ==> left[k] == c;
    forall k | i + |r| <= k < |s| ensures s[k] == c {
      assert s[k] == left[k - i];
    }
    assert IsStrippedSlice(s, r, i, c);
  }

  /** Python's `a <= b` on `str`: lexicographic by code point, a prefix first. */
  predicate LexLe(a: string, b: string) {
    |a| == 0 || (|b| > 0 && (a[0] < b[0] || (a[0] == b[0] && LexLe(a[1..], b[1..]))))
  }

  lemma {:induction false} LexLeTotal(a: string, b: string)
    ensures LexLe(a, b) || LexLe(b, a)
  {
    if |a| > 0 && |b| > 0 && a[0] == b[0] {
      LexLeTotal(a[1..], b[1..]);
    }
  }

  lemma {:induction false} LexLeTransitive(a: string, b: string, c: string)
    requires LexLe(a, b) && LexLe(b, c)
    ensures LexLe(a, c)
  {
    if |a| > 0 && a[0] == b[0] && b[0] == c[0] {
      LexLeTransitive(a[1..], b[1..], c[1..]);
    }
  }
}

=== FILE: tree_renderer.dfy ===
/** Step 4 of the pipeline, `build_directory_tree`: the file list rendered as
    an indented listing. Every directory on the way to a file gets its own line
    the first time it is met, each file gets one line, and the listing sits
    between a header and a pair of code fences. */
module TreeRenderer {
  import opened Strings
  import opened Paths

  const Header := "# Directory Structure"
  const Fence := "```"

  /** One line of the listing, before it is turned into text. */
  datatype TreeLine = DirLine(dir: RelPath) | FileLine(file: RelPath)

  /** `"  " * depth` */
  function Indent(depth: nat): (r: string)
    ensures |r| == 2 * depth
    ensures forall i :: 0 <= i < |r| ==> r[i] == ' '
  {
    if depth == 0 then "" else "  " + Indent(depth - 1)
  }

  /** The text of a line: two spaces per level below the root, then the last
      part of the path, with `/` after a directory. */
  function LineText(t: TreeLine): string {
    match t
    case DirLine(d) => Indent(|d| - 1) + Name(d) + "/"
    case FileLine(f) => Indent(|f| - 1) + Name(f)
  }

  /** `f[..i]` for `1 <= i < n`: the directories the inner loop has met
      after `n - 1` rounds. */
  function PrefixDirs(f: RelPath, n: nat): set<seq<string>>
    requires n <= |f|
  {
    if n <= 1 then {} else PrefixDirs(f, n - 1) + {f[..n - 1]}
  }

  lemma {:induction false} PrefixDirsMember(f: RelPath, n: nat, d: seq<string>)
    requires n <= |f|
    ensures d in PrefixDirs(f, n) <==> 1 <= |d| < n && f[..|d|] == d
  {
    if n > 1 {
      PrefixDirsMember(f, n - 1, d);
    }
  }

  /** The directories on the way to `f`. */
  function AncestorDirs(f: RelPath): set<seq<string>> {
    PrefixDirs(f, |f|)
  }

  /** `seen_dirs` once the given files have been listed. */
  function SeenDirs(files: seq<RelPath>): set<seq<string>> {
    if |files| == 0 then {}
    else SeenDirs(files[..|files| - 1]) + AncestorDirs(files[|files| - 1])
  }

  /** `seen_dirs` holds exactly the directories on the way to the listed files. */
  lemma {:induction false} SeenDirsMember(files: seq<RelPath>, d: seq<string>)
    ensures d in SeenDirs(files) <==> exists f :: f in files && IsAncestor(d, f)
  {
    if |files| > 0 {
      var init := files[..|files| - 1];
      var last := files[|files| - 1];
      assert files == init + [last];
      SeenDirsMember(init, d);
      PrefixDirsMember(last, |last|, d);
      assert SeenDirs(files) == SeenDirs(init) + AncestorDirs(last);
      if exists f :: f in files && IsAncestor(d, f) {
        var f :| f in files && IsAncestor(d, f);
        assert f in init || f == last;
      }
      if d in SeenDirs(init) {
        var f :| f in init && IsAncestor(d, f);
        assert f in files;
      }
      if IsAncestor(d, last) {
        assert last in files;
      }
    }
  }

  /** Listing one more file adds its new directories and then its own line. */
  lemma ListingSnoc(files: seq<RelPath>, k: nat)
    requires k < |files|
    ensures SeenDirs(files[..k + 1]) == SeenDirs(files[..k]) + AncestorDirs(files[k])
    ensures Listing(files[..k + 1]) ==
              Listing(files[..k]) + NewDirs(files[k], SeenDirs(files[..k]), |files[k]|) + [FileLine(files[k])]
  {
    assert files[..k + 1][..k] == files[..k];
  }

  /** The directory lines the inner loop emits for `f` after `n - 1` rounds:
      `f[..i]` for `1 <= i < n`, unless `seen` already holds it. */
  function NewDirs(f: RelPath, seen: set<seq<string>>, n: nat): seq<TreeLine>
    requires n <= |f|
  {
    if n <= 1 then []
    else NewDirs(f, seen, n - 1) + (if f[..n - 1] in seen then [] else [DirLine(f[..n - 1])])
  }

  /** The lines of the listing, between the header and the closing fence. */
  function Listing(files: seq<RelPath>): seq<TreeLine> {
    if |files| == 0 then []
    else
      var init := files[..|files| - 1];
      var f := files[|files| - 1];
      Listing(init) + NewDirs(f, SeenDirs(init), |f|) + [FileLine(f)]
  }

  /** The text of each line, in order. */
  function Render(items: seq<TreeLine>): seq<string> {
    seq(|items|, i requires 0 <= i < |items| => LineText(items[i]))
  }

  /** `lines` holds the header, the fence and then the text of each item. */
  predicate Rendered(lines: seq<string>, items: seq<TreeLine>) {
    |lines| == |items| + 2 && lines[0] == Header && lines[1] == Fence
    && forall q :: 0 <= q < |items| ==> lines[q + 2] == LineText(items[q])
  }

  /** The lines built so far are the header, the fence and the rendered items. */
  lemma RenderedLines(lines: seq<string>, items: seq<TreeLine>)
    requires Rendered(lines, items)
    ensures lines == [Header, Fence] + Render(items)
  {
  }

  /** One round of the inner loop: `dir` joins the met directories, and gets
      a line when it was not seen before this file. */
  lemma InnerStep(f: RelPath, before: set<seq<string>>, i: nat)
    requires 1 <= i < |f|
    ensures PrefixDirs(f, i + 1) == PrefixDirs(f, i) + {f[..i]}
    ensures NewDirs(f, before, i + 1) ==
              NewDirs(f, before, i) + (if f[..i] in before then [] else [DirLine(f[..i])])
  {
  }

  /** All lines of the rendered tree, in order. */
  function TreeLines(files: seq<RelPath>): seq<string> {
    [Header, Fence] + Render(Listing(files)) + [Fence]
  }

  /** The inner loop of `build_directory_tree` for one file: each directory on
      the way to `rel` that is not in `seen0` is marked seen and gets a line. */
  method ListDirectories(rel: RelPath, seen0: set<seq<string>>, lines0: seq<string>, ghost items0: seq<TreeLine>)
    returns (seen: set<seq<string>>, lines: seq<string>, ghost items: seq<TreeLine>)
    requires Rendered(lines0, items0)
    ensures seen == seen0 + AncestorDirs(rel)
    ensures items == items0 + NewDirs(rel, seen0, |rel|)
    ensures Rendered(lines, items)
  {
    seen, lines, items := seen0, lines0, items0;
    for i := 1 to |rel|
      invariant seen == seen0 + PrefixDirs(rel, i)
      invariant items == items0 + NewDirs(rel, seen0, i)
      invariant Rendered(lines, items)
    {
      var dir := rel[..i];
      PrefixDirsMember(rel, i, dir);
      InnerStep(rel, seen0, i);
      if dir !in seen {
        seen := seen + {dir};
        lines := lines + [Indent(|dir| - 1) + Name(dir) + "/"];
        items := items + [DirLine(dir)];
      }
    }
  }

  /** `build_directory_tree` */
  method BuildDirectoryTree(files: seq<RelPath>) returns (tree: string)
    ensures tree == Join(TreeLines(files), "\n")
    ensures StartsWith(tree, Header + "\n" + Fence + "\n")
    ensures EndsWith(tree, "\n" + Fence)
  {
    var lines := [Header, Fence];
    var seen: set<seq<string>> := {};
    ghost var items: seq<TreeLine> := [];
    for k := 0 to |files|
      invariant seen == SeenDirs(files[..k])
      invariant items == Listing(files[..k])
      invariant Rendered(lines, items)
    {
      var rel := files[k];
      seen, lines, items := ListDirectories(rel, seen, lines, items);
      lines := lines + [Indent(|rel| - 1) + Name(rel)];
      items := items + [FileLine(rel)];
      ListingSnoc(files, k);
    }
    assert files[..|files|] == files;
    RenderedLines(lines, items);
    lines := lines + [Fence];
    tree := Join(lines, "\n");
    JoinFraming(Render(Listing(files)));
  }

  lemma JoinFraming(body: seq<string>)
    ensures StartsWith(Join([Header, Fence] + body + [Fence], "\n"), Header + "\n" + Fence + "\n")
    ensures EndsWith(Join([Header, Fence] + body + [Fence], "\n"), "\n" + Fence)
  {
    var lines := [Header, Fence] + body + [Fence];
    var tail := Join(body + [Fence], "\n");
    assert lines == [Header, Fence] + (body + [Fence]);
    JoinAppend([Header, Fence], body + [Fence], "\n");
    assert Join([Header, Fence], "\n") == Header + "\n" + Fence;
    var front := Header + "\n" + Fence + "\n";
    assert Join(lines, "\n") == front + tail;
    assert (front + tail)[..|front|] == front;
    if |body| > 0 {
      JoinAppend(body, [Fence], "\n");
      var mid := Join(body, "\n") + "\n";
      assert tail == mid + Fence;
      assert front + tail == (front + mid) + Fence;
    } else {
      assert body + [Fence] == [Fence];
    }
  }

  // ---------------------------------------------------------------------
  // What the listing promises

  /** The file lines of a listing, in order. */
  function FilesOf(items: seq<TreeLine>): seq<RelPath> {
    if |items| == 0 then []
    else
      var last := items[|items| - 1];
      FilesOf(items[..|items| - 1]) + (if last.FileLine? then [last.file] else [])
  }

  lemma {:induction false} FilesOfAppend(a: seq<TreeLine>, b: seq<TreeLine>)
    ensures FilesOf(a + b) == FilesOf(a) + FilesOf(b)
  {
    if |b| > 0 {
      assert (a + b)[..|a + b| - 1] == a + b[..|b| - 1];
      FilesOfAppend(a, b[..|b| - 1]);
    } else {
      assert a + b == a;
    }
  }

  lemma {:induction false} NewDirsHoldNoFiles(f: RelPath, seen: set<seq<string>>, n: nat)
    requires n <= |f|
    ensures FilesOf(NewDirs(f, seen, n)) == []
  {
    if n > 1 {
      NewDirsHoldNoFiles(f, seen, n - 1);
      FilesOfAppend(NewDirs(f, seen, n - 1), if f[..n - 1] in seen then [] else [DirLine(f[..n - 1])]);
    }
  }

  /** Exactly one line per file, in the order of the input list. */
  lemma {:induction false} ListingFiles(files: seq<RelPath>)
    ensures FilesOf(Listing(files)) == files
  {
    if |files| > 0 {
      var init := files[..|files| - 1];
      var f := files[|files| - 1];
      assert Listing(files) == Listing(init) + NewDirs(f, SeenDirs(init), |f|) + [FileLine(f)];
      ListingFiles(init);
      NewDirsHoldNoFiles(f, SeenDirs(init), |f|);
      FilesOfAppend(Listing(init), NewDirs(f, SeenDirs(init), |f|));
      FilesOfAppend(Listing(init) + NewDirs(f, SeenDirs(init), |f|), [FileLine(f)]);
      assert files == init + [f];
    }
  }

  /** The text of the file lines of a listing, in order. */
  function FileTexts(items: seq<TreeLine>): seq<string> {
    if |items| == 0 then []
    else
      var last := items[|items| - 1];
      FileTexts(items[..|items| - 1]) + (if last.FileLine? then [LineText(last)] else [])
  }

  /** Each file line reads as its file's indentation and name. */
  lemma {:induction false} FileTextsOfFiles(items: seq<TreeLine>)
    ensures |FileTexts(items)| == |FilesOf(items)|
    ensures forall i :: 0 <= i < |FilesOf(items)| ==>
              FileTexts(items)[i] == Indent(|FilesOf(items)[i]| - 1) + Name(FilesOf(items)[i])
  {
    if |items| > 0 {
      FileTextsOfFiles(items[..|items| - 1]);
    }
  }

  /** In the rendered listing, the i-th file line is the i-th input file,
      indented two spaces per directory above it and showing only its name. */
  lemma FileLinesText(files: seq<RelPath>)
    ensures |FileTexts(Listing(files))| == |files|
    ensures forall i :: 0 <= i < |files| ==>
              FileTexts(Listing(files))[i] == Indent(|files[i]| - 1) + Name(files[i])
  {
    ListingFiles(files);
    FileTextsOfFiles(Listing(files));
  }

  /** One more round of the inner loop adds one line for `f[..n - 1]` when it
      is not yet seen. */
  lemma NewDirsStepCount(f: RelPath, seen: set<seq<string>>, n: nat, d: RelPath)
    requires 1 < n <= |f|
    ensures multiset(NewDirs(f, seen, n))[DirLine(d)] ==
              multiset(NewDirs(f, seen, n - 1))[DirLine(d)] + (if f[..n - 1] !in seen && d == f[..n - 1] then 1 else 0)
  {
    var prev := NewDirs(f, seen, n - 1);
    var x := f[..n - 1];
    if x !in seen {
      assert NewDirs(f, seen, n) == prev + [DirLine(x)];
      assert multiset(prev + [DirLine(x)]) == multiset(prev) + multiset{DirLine(x)};
    }
  }

  /** The inner loop emits `f[..i]` (for `i < n`) once when it is not yet seen,
      and nothing else. */
  lemma {:induction false} NewDirsCount(f: RelPath, seen: set<seq<string>>, n: nat, d: RelPath)
    requires n <= |f|
    ensures multiset(NewDirs(f, seen, n))[DirLine(d)] ==
              if |d| < n && f[..|d|] == d && d !in seen then 1 else 0
  {
    if n > 1 {
      NewDirsCount(f, seen, n - 1, d);
      NewDirsStepCount(f, seen, n, d);
    }
  }

  /** Each directory on the way to some file is listed exactly once, and no
      other directory is listed. */
  lemma {:induction false} ListingDirCount(files: seq<RelPath>, d: RelPath)
    ensures multiset(Listing(files))[DirLine(d)] == if d in SeenDirs(files) then 1 else 0
  {
    if |files| > 0 {
      var init := files[..|files| - 1];
      var f := files[|files| - 1];
      ListingDirCount(init, d);
      NewDirsCount(f, SeenDirs(init), |f|, d);
      PrefixDirsMember(f, |f|, d);
    }
  }

  /** Every file line comes after the lines of all the directories above it. */
  predicate AncestorsListedBefore(items: seq<TreeLine>) {
    forall j :: 0 <= j < |items| && items[j].FileLine? ==> AncestorsIn(items[j].file, items[..j])
  }

  predicate AncestorsIn(f: RelPath, prior: seq<TreeLine>) {
    forall i :: 1 <= i < |f| ==> DirLine(f[..i]) in prior
  }

  /** Every directory line below the top level comes after its parent's line. */
  predicate ParentsListedBefore(items: seq<TreeLine>) {
    forall j :: 0 <= j < |items| && items[j].DirLine? ==> ParentIn(items[j].dir, items[..j])
  }

  predicate ParentIn(d: RelPath, prior: seq<TreeLine>) {
    |d| > 1 ==> DirLine(d[..|d| - 1]) in prior
  }

  /** A directory line of `f` whose parent was not seen before has its parent
      earlier among the lines emitted for `f`. */
  predicate ParentNewOrSeen(d: RelPath, seen: set<seq<string>>, prior: seq<TreeLine>) {
    |d| > 1 ==> d[..|d| - 1] in seen || DirLine(d[..|d| - 1]) in prior
  }

  /** `t` is the line of a directory `f[..m]` with `m < n`, whose parent is
      either already seen or among the lines `prior`. */
  predicate EmittedFor(t: TreeLine, f: RelPath, n: nat, seen: set<seq<string>>, prior: seq<TreeLine>) {
    t.DirLine? && |t.dir| < n && |t.dir| <= |f| && f[..|t.dir|] == t.dir
    && ParentNewOrSeen(t.dir, seen, prior)
  }

  /** The parent of `f[..n - 1]` is seen already or among the lines emitted
      for `f` before it. */
  lemma ParentEmittedBefore(f: RelPath, seen: set<seq<string>>, n: nat)
    requires 1 < n <= |f|
    ensures ParentNewOrSeen(f[..n - 1], seen, NewDirs(f, seen, n - 1))
  {
    if n - 1 > 1 {
      var d := f[..n - 1];
      var parent := f[..n - 2];
      assert d[..|d| - 1] == parent;
      NewDirsCount(f, seen, n - 1, parent);
      if parent !in seen {
        assert multiset(NewDirs(f, seen, n - 1))[DirLine(parent)] == 1;
      }
    }
  }

  lemma {:induction false} NewDirsOrder(f: RelPath, seen: set<seq<string>>, n: nat)
    requires n <= |f|
    ensures forall q :: 0 <= q < |NewDirs(f, seen, n)| ==>
              EmittedFor(NewDirs(f, seen, n)[q], f, n, seen, NewDirs(f, seen, n)[..q])
  {
    if n > 1 {
      NewDirsOrder(f, seen, n - 1);
      var before := NewDirs(f, seen, n - 1);
      var after := NewDirs(f, seen, n);
      assert after[..|before|] == before;
      forall q | 0 <= q < |after|
        ensures EmittedFor(after[q], f, n, seen, after[..q])
      {
        if q < |before| {
          assert after[q] == before[q];
          assert after[..q] == before[..q];
          assert EmittedFor(before[q], f, n - 1, seen, before[..q]);
        } else {
          assert after[q] == DirLine(f[..n - 1]);
          assert after[..q] == before;
          ParentEmittedBefore(f, seen, n);
        }
      }
    }
  }

  /** Directory lines come before the files below them and after their parent. */
  lemma {:induction false} ListingOrder(files: seq<RelPath>)
    ensures AncestorsListedBefore(Listing(files))
    ensures ParentsListedBefore(Listing(files))
  {
    if |files| > 0 {
      var init := files[..|files| - 1];
      var f := files[|files| - 1];
      var seen := SeenDirs(init);
      var listed := Listing(init);
      var added := NewDirs(f, seen, |f|);
      var all := listed + added + [FileLine(f)];
      assert all == Listing(files);
      ListingOrder(init);
      NewDirsOrder(f, seen, |f|);
      forall j | 0 <= j < |all|
        ensures all[j].FileLine? ==> AncestorsIn(all[j].file, all[..j])
        ensures all[j].DirLine? ==> ParentIn(all[j].dir, all[..j])
      {
        if j < |listed| {
          assert all[j] == listed[j] && all[..j] == listed[..j];
        } else if j < |listed| + |added| {
          var q := j - |listed|;
          assert all[j] == added[q];
          assert all[..j] == listed + added[..q];
          var d := added[q].dir;
          if |d| > 1 {
            var parent := d[..|d| - 1];
            if parent in seen {
              ListingDirCount(init, parent);
              assert DirLine(parent) in listed;
            }
          }
        } else {
          assert all[..j] == listed + added;
          forall i | 1 <= i < |f| ensures DirLine(f[..i]) in all[..j] {
            ListingDirCount(init, f[..i]);
            NewDirsCount(f, seen, |f|, f[..i]);
          }
        }
      }
    }
  }

  /** Each directory on the way to some listed file has exactly one line,
      and no other directory has any. */
  lemma DirectoryListedOnce(files: seq<RelPath>, d: RelPath)
    ensures multiset(Listing(files))[DirLine(d)] ==
              if exists f :: f in files && IsAncestor(d, f) then 1 else 0
  {
    ListingDirCount(files, d);
    SeenDirsMember(files, d);
  }
}

=== FILE: wrappers.dfy ===
/** Optional values and results with an error, for Python's `None` and raised exceptions. */
module Wrappers {

  datatype Option<+T> = None | Some(value: T)

  datatype Result<+T, +E> = Ok(value: T) | Err(error: E)
}
